=== FILE: README.md ===
# Bank ledger core, modelled in Dafny

This project models the ledger rules of a single-file Flask banking
application (`gms.py`). The HTTP, SQL and rendering code is stripped away. Each
state-changing route handler becomes a pure, atomic transition on an immutable
`Bank` value. The route handlers are: open account, deposit, withdraw, create
fixed deposit (FD), apply for a loan, and approve a loan. `Bank` holds:

- the customers table, as a map from account number to name, age, mobile, PIN
  and balance, plus the AUTOINCREMENT counter that hands out account numbers;
- the append-only transaction log of (account, kind, amount, note) entries;
- the fixed deposits;
- the loans, each with its `approved` flag.

Money is integer paise. FD maturity is an exact rational (`real`). The ATM PIN
check and the dashboard figures are read-only queries over the same state.

Modules, one file each:

- `Wrappers` (`wrappers.dfy`): `Option` and `Result`.
- `Numerals` (`numerals.dfy`): Python's `int()` on form text, `str()` of an
  integer, and the integer key SQLite matches a text parameter against in
  `WHERE account_no=?` / `WHERE loan_id=?`. SQLite accepts more ("1.0", "1.",
  a number behind thousands of zeros) than `int()` does, since CPython's
  `int()` reads at most 4300 digits. Text with a '.' is a REAL to SQLite,
  rounded to the nearest double before it meets the key.
- `Ledger` (`ledger.dfy`): the tables as datatypes, the failure reasons, the
  rate constants, SQLite's 64-bit INTEGER range, key lookups, and the signed
  sums of the log. Most failure reasons are one flash message each;
  `InvalidRequest` stands for both "Valid account & amount required" and
  "Valid account, amount and tenure required". `ServerError` and
  `UnloggedCommit` are not flash messages but uncaught exceptions, before and
  after a commit.
- `Handlers` (`handlers.dfy`): one function per route handler, with the
  handler's guards in the same order and its effects.
- `Dashboard` (`dashboard.dfy`): total balance, approved-loan count, and the
  newest transactions.
- `Reconciliation` (`reconciliation.dfy`): the handlers as a state machine. It
  proves that balances match the log and never go negative, and it shows the
  program's non-idempotent loan approval.

Behaviour the model keeps on purpose, because the code does it:

- A negative initial deposit is accepted. The account opens with a negative
  balance and no log entry (`NegativeOpeningBreaksInvariants`). The
  reconciliation and non-negativity results therefore assume every opening
  used a non-negative amount.
- The program puts no bound on the age beyond `int()`: zero and negative
  ages are accepted. An age outside SQLite's 64-bit INTEGER makes the INSERT
  raise, and nothing is written; so does a tenure outside it in the FD and
  loan handlers.
- Approving an already-approved loan credits it again (`ReapprovalCreditsTwice`).
  There is no "already approved" refusal.
- Approving a loan whose account row is missing still marks it approved but
  credits nothing (`ApprovalWithoutAccount`).
- The `acc` and `loan_id` fields are matched by SQLite, not by `int()`. So
  "1.0" finds account 1 at the ATM and selects loan 1 for approval; the
  intended approval credits it with the note "LoanID:1.0".
- Deposit and withdrawal commit the new balance and only then log the entry,
  calling `int()` on the account text. If SQLite matched the text but `int()`
  refuses it ("1.0", or "1" behind 4300 zeros), the handler raises after the
  commit. The balance has moved and
  nothing is logged (`UnloggedDepositBreaksReconciliation`). FD creation and
  loan application call `int()` before writing anything, so the same text
  changes nothing there. The reconciliation results therefore also assume no
  deposit or withdrawal names its account in such a form.

A stricter ledger would reject negative openings, non-positive ages,
re-approval and account numbers written in odd forms. The program does none of
these, and the model follows the program. The one exception is loan approval,
which cannot credit anyone as the program's storage calls are written (see
"## Findings"). The rest of the model uses the approval the handler
evidently means to perform.

## Model

| member | source | states |
|---|---|---|
| Numerals.ParseIntOfIntToString | gms.py:548-551 | Reading back the decimal text that `str()` prints for an integer with `int()` gives the same integer exactly when it has at most 4300 digits; longer text is refused |
| Numerals.ParseInt | gms.py:484-488 | On text with no blanks, `int()` yields a value exactly for an optional sign followed by 1 to 4300 ASCII digits, CPython's default digit limit, leading zeros counted. The value is the digits' decimal value, negated after '-' |
| Numerals.PythonInt | gms.py:548-551 | On text with no blank at either end, `int()` reads exactly as `ParseInt` does |
| Numerals.TrimStartRemovesBlanks | gms.py:548-551 | Stripping the start of the text removes only blanks and keeps the rest of the text unchanged |
| Numerals.TrimEndRemovesBlanks | gms.py:548-551 | Stripping the end of the text removes only blanks and keeps the start of the text unchanged |
| Numerals.PythonIntIgnoresBlanks | gms.py:548-551 | `int()` reads text with any blanks around it exactly as it reads the text alone |
| Numerals.SqlKey | gms.py:509 | Every account or loan text that `int()` reads selects, in SQLite, the row whose key is the value `int()` returns |
| Numerals.DecimalPointText | gms.py:509-517 | Text such as "7.0" is read by SQLite as a REAL, so it selects the key of the double nearest to the number, which is the number itself up to 2^53; `int()` refuses the text |
| Numerals.NearestDouble | gms.py:509 | The REAL that decimal text with a '.' becomes: a multiple of the gap between neighbouring doubles, within half a gap of the number, the even multiple on a tie, and the number itself up to 2^53 |
| Numerals.DecimalPointRounds | gms.py:509 | 9007199254740993 lies halfway between two doubles and rounds to the even one, 9007199254740992; with `DecimalPointText`, "9007199254740993.0" therefore selects key 9007199254740992 |
| Numerals.LongNumberText | gms.py:509-517 | A number behind enough zeros to exceed 4300 digits still selects its key in SQLite, while `int()` refuses it |
| Numerals.IntToStringKeys | gms.py:493-497 | The number the program prints, typed back, selects that key in SQLite, and `int()` reads it back whenever it has at most 4300 digits |
| Numerals.SqlKeyOfIntToString | gms.py:493-497 | The decimal text `str()` prints for any integer, however long, selects that integer's key in SQLite |
| Ledger.FindAccount | gms.py:509-513 | An `acc` field finds a row exactly when SQLite's reading of it is a key present in the customers table, and then it finds that key. When `int()` also reads the text, it yields the same key |
| Ledger.FindLoan | gms.py:613-615 | A `loan_id` field finds a loan exactly when SQLite's reading of it is an identifier between 1 and the number of loans, and then it finds the loan at that position |
| Ledger.NetAppend | gms.py:100-105 | Appending one log entry changes only its own account's signed total, by the entry's signed amount, and changes the log-wide total by the same amount |
| Handlers.FdNote | gms.py:567 | For a tenure that was stored, and so fits SQLite's INTEGER, the FD note has the form "FD <digits> mo", and its middle part reads back as the tenure |
| Handlers.Maturity | gms.py:560-561 | Maturity is the principal times (1 + 0.055 × tenure / 12), and it exceeds the principal when principal and tenure are positive |
| Handlers.OpenAccount | gms.py:474-498 | Blank name, age, mobile or PIN, or an unparsed initial amount, is refused first; non-integer age is refused next. An age outside SQLite's 64-bit INTEGER, or a counter that has handed out its last key, makes the INSERT raise with nothing written. Otherwise the next account number gets exactly those details with balance = initial. One "Initial deposit" entry is logged only if initial > 0. Loans and FDs are unchanged |
| Handlers.MakeDeposit | gms.py:501-519 | A blank account or a missing or non-positive amount is refused, then an account SQLite does not match. If the account matches, the balance rises by exactly the amount and nothing else moves. Exactly one Deposit entry is appended when `int()` reads the account text; when it does not, the credit stays committed and nothing is logged |
| Handlers.MakeWithdrawal | gms.py:522-540 | Same guards as a deposit, then a balance below the amount is refused. Otherwise only that balance falls, by exactly the amount, and it stays non-negative. One Withdraw entry is appended exactly when `int()` reads the account text |
| Handlers.OpenFd | gms.py:560-567 | Once the FD guards pass, the principal leaves exactly that balance, one FD row at rate 0.055 with maturity above the principal is stored, and one FD_Create entry noting the tenure is logged; accounts other than the debited one, the counter and the loans are untouched |
| Handlers.CreateFd | gms.py:543-569 | Checks run in this order: a tenure `int()` refuses (including one of more than 4300 digits), then a blank account, non-positive amount or tenure, then an account not found, then a balance below the amount. An account text `int()` refuses, or a tenure beyond SQLite's 64-bit INTEGER, raises with nothing written. On success the balance drops by exactly the amount, one FD at rate 0.055 with maturity above the principal is stored, and one FD_Create entry noting the tenure is appended |
| Handlers.ApplyForLoan | gms.py:572-591 | Same tenure, field and account guards as an FD, with no balance check. An account text `int()` refuses, or a tenure beyond SQLite's 64-bit INTEGER, raises with nothing written. Success appends one pending loan at rate 0.1 and leaves every balance and the log unchanged |
| Handlers.ApproveLoan | gms.py:607-628 | The approval the handler sets out to perform. A blank id changes nothing; an unknown id is refused. Otherwise the loan's flag becomes true. If its account exists, only that balance rises by the loan amount and one LoanCredit entry noting "LoanID:<id>" is appended. If the account is missing, no balance moves and nothing is logged |
| Handlers.ApproveLoanAsWritten | gms.py:607-628 | Approval as the storage calls play out. Blank and unknown ids behave as above. A loan whose account exists fails with nothing committed. A loan whose account is missing gets its flag set and nothing else |
| Handlers.ApprovalAsWrittenNeverCredits | gms.py:617-622 | As written, approval never moves a balance or writes the log. It differs from the intended approval exactly when the loan's account exists, where the intended one credits the loan amount and logs one entry |
| Handlers.AtmCheck | gms.py:646-656 | ATM login succeeds exactly when SQLite matches the account text to an existing account and its stored PIN equals the given one. Otherwise it fails with "not found" or "incorrect PIN" accordingly |
| Dashboard.SumBalancesUpdate | gms.py:462 | Changing one account row moves the `SUM(balance)` total by exactly that row's change in balance |
| Dashboard.SumBalancesNonNegative | gms.py:462-463 | When no balance is negative, the dashboard total is not negative |
| Dashboard.ApprovedCountIsApprovedIds | gms.py:465 | The approved-loan count equals the number of distinct loan identifiers whose flag is set |
| Dashboard.ApprovedCountApprove | gms.py:617 | Setting one loan's flag raises the approved count by one if that loan was pending, and leaves it unchanged otherwise |
| Dashboard.ApprovedCountAppendPending | gms.py:587-588 | A new pending application leaves the approved count unchanged |
| Dashboard.RecentTransactions | gms.py:466-467 | The dashboard lists the newest min(limit, log length) entries, newest first |
| Dashboard.Overview | gms.py:456-471 | The page shows the statistics cards. It shows the newest min(10, log length) entries as recent and the newest min(200, log length) as the full table, both newest first, so the recent panel is the head of the table |
| Reconciliation.EmptyBankIsSound | gms.py:48-95 | The freshly initialised database satisfies all invariants |
| Reconciliation.AppendKeepsReconciled | gms.py:514-517 | Moving one account by an entry's signed amount while logging that entry keeps every balance equal to its account's signed log total |
| Reconciliation.OpenKeepsReconciled | gms.py:489-495 | Opening the next account number with a non-negative initial amount, logged only if positive, keeps every balance equal to its signed log total |
| Reconciliation.OpenKeepsSound | gms.py:474-498 | Opening an account with a non-negative (or unparsed) initial amount keeps every invariant: the new number is unused, and its balance matches its single "Initial deposit" entry, or no entry when it is zero |
| Reconciliation.DepositKeepsSound | gms.py:501-519 | A successful deposit keeps every balance reconciled with the log and non-negative |
| Reconciliation.WithdrawalKeepsSound | gms.py:522-540 | A successful withdrawal keeps every balance reconciled and non-negative: the balance guard stops a withdrawal from driving it below zero |
| Reconciliation.FdKeepsSound | gms.py:543-569 | A successful FD creation keeps every balance reconciled and non-negative: the principal debit is logged as FD_Create and the balance guard stops it from going below zero |
| Reconciliation.LoanApplicationKeepsSound | gms.py:572-591 | A loan application keeps every invariant, and the new loan has a positive amount |
| Reconciliation.ApprovalKeepsSound | gms.py:607-628 | Every approval, including a repeated one, keeps every balance reconciled and non-negative |
| Reconciliation.StepKeepsSound | gms.py:474-628 | Every request preserves the invariants, except an opening with a negative amount and a deposit or withdrawal whose account text SQLite matches but `int()` refuses ("1.0", or more than 4300 digits). The invariants: the counter within SQLite's INTEGER, account numbers within the counter, log entries naming existing accounts, positive loan amounts, reconciled balances, non-negative balances. Failed requests keep what they committed, which is nothing for every other failure |
| Reconciliation.RunKeepsSound | gms.py:474-628 | Every sequence of such requests preserves the same invariants |
| Reconciliation.ReachableStatesReconcile | gms.py:495 | Assume, from an empty database, that no account was opened with a negative amount and no deposit or withdrawal named its account in a form `int()` refuses. Then after any such sequence of requests every balance is non-negative. It equals the Deposit and LoanCredit amounts minus the Withdraw and FD_Create amounts logged for that account |
| Reconciliation.NegativeOpeningBreaksInvariants | gms.py:481-495 | A negative initial amount is accepted. It leaves a negative balance with an empty history, breaking both non-negativity and reconciliation |
| Reconciliation.UnloggedDepositBreaksReconciliation | gms.py:509-517 | A deposit naming an account by any text SQLite matches but `int()` refuses credits it and commits, then raises before logging. The balance exceeds its logged total, so the second assumption above cannot be dropped |
| Reconciliation.UnloggedTextExists | gms.py:509-517 | Every existing account can be named by text SQLite matches but `int()` refuses: behind 4300 zeros for any account, and as "<number>.0" up to 2^53; above that "<number>.0" selects the nearest double's key |
| Reconciliation.TotalBalanceIsNetOfLog | gms.py:462 | In a reconciled state the dashboard's total of balances equals the signed sum of the whole transaction log |
| Reconciliation.TotalBalanceNonNegative | gms.py:462-463 | In a sound state the dashboard's total of balances is non-negative |
| Reconciliation.ApprovalMovesDashboard | gms.py:613-622 | Approving a loan raises the approved count by one only if the loan was pending. It raises the total by the loan amount whenever the account exists, even on re-approval |
| Reconciliation.ReapprovalCreditsTwice | gms.py:613-622 | Approving the same loan twice credits its account twice the loan amount and logs two LoanCredit entries |
| Reconciliation.ApprovalWithoutAccount | gms.py:617-619 | A loan whose account is missing is still marked approved, and the accounts and log stay unchanged |
| Reconciliation.OpenedAccountPassesAtm | gms.py:493-497 | The account number reported after opening, entered with the chosen PIN, passes the ATM check |
| Reconciliation.StepKeepsPins | gms.py:650-653 | No request removes an account or changes the PIN the ATM check compares against |
| Reconciliation.OpenDepositWithdrawScenario | gms.py:490-538 | Opening with 1000.00, depositing 500.00 and withdrawing 300.00 leaves 1200.00 and the three entries in order |
| Reconciliation.FdMaturityExample | gms.py:560-561 | A 10000.00 FD for 12 months matures at 10550.00 |
| Reconciliation.LoanScenario | gms.py:586-588 | A 5000.00 loan for 6 months is stored pending at rate 0.1. Approving it sets the flag and credits exactly 5000.00 |

## Left out

- HTTP routing, redirects, `flash` messages and HTML templates, including the admin loans page listing (`ORDER BY created_at DESC`): presentation only. Each flash message becomes a `Failure` value; `InvalidRequest` stands for two of them.
- SQLite connections, the schema and commits: storage is the in-memory `Bank`. Each handler is one step; a handler that raises keeps exactly what it had committed (`Handlers.Committed`). Rollback journals and the lock timeout appear only through `ApproveLoanAsWritten`.
- Concurrent requests: the development server (`app.run(debug=True)`) serves requests on threads. Two read-modify-write balance updates that interleave can lose one of them. The model serves requests one at a time.
- PDF, QR code and logo export: foreign library calls with no checkable ledger behaviour.
- The admin login against hard-coded credentials: a trivial comparison outside the ledger.
- The SMS `print` on approval: side output only.
- Timestamps (`now_str`): log order is insertion order. The program's `ORDER BY date DESC` ties entries from the same second in no defined order. The model shows the newest entry first.
- `safe_float`, which the file calls but never defines: amounts arrive already parsed, as `Option<Money>` in paise. Float arithmetic and `fmt_amount` rounding are left out; money is exact.
- The `.strip()` applied to the opening form's fields: those fields are taken as already stripped.
- Numerals.ParseInt and Numerals.PythonInt: underscores between digits ("1_0") and non-ASCII digits and blanks, which `int()` also accepts, are not modelled; such text reads as None. The 4300-digit limit is CPython's default (3.11 onwards); a process started with another `PYTHONINTMAXSTRDIGITS` would accept more or fewer digits.
- Numerals.SqlKey: covers text that is a whole number written in digits, optionally signed, followed by an optional '.' and zeros, with blanks around it. Text with a '.' is read through the nearest binary64 double, so above 2^53 it selects that double's key, or none when the double lies beyond the 64-bit INTEGER ("9223372036854775806.0" becomes 2^63). The rounding is modelled as exact nearest-even; an SQLite build whose text-to-REAL conversion is not correctly rounded for more than about 18 significant digits may land on a neighbouring double. Exponent forms ("1e0", "10e-1") and fractions that round to a whole double ("1.00000000000000000001") also select a key in SQLite, but read as None here. Whole numbers without a '.' beyond SQLite's 64-bit INTEGER read as themselves, where SQLite turns them into floating-point values; no key that large exists, so lookups agree.
- Ledger.FindAccount and Ledger.FindLoan: for those exponent and rounding forms they report not found where SQLite finds the row. So `AtmCheck` and `ApproveLoan` refuse such text where the program accepts it.
- Handlers.MakeDeposit and Handlers.MakeWithdrawal: for the same forms they report an unknown account where the program commits the balance change and then raises without logging.
- The AUTOINCREMENT limit of the transactions, fds and loans tables: their identifiers are positions in unbounded sequences, which would need 2^63 rows to differ.
- Reconciliation.StepKeepsSound: holds only for admissible requests. An opening with a negative amount, and a deposit or withdrawal whose account text SQLite matches but `int()` refuses, break the invariants in the program (`NegativeOpeningBreaksInvariants`, `UnloggedDepositBreaksReconciliation`).
- Reconciliation.RunKeepsSound: inherits the same restriction to admissible requests.
- Reconciliation.ReachableStatesReconcile: assumes every request in the sequence is admissible, for the same reason.
- Handlers.CreateFd and Handlers.ApplyForLoan: for the same forms they report an unknown account where the program raises with nothing written; the state is unchanged either way.
- The dashboard's customer and FD counts (`Dashboard.Summary`): they are plain table sizes, so no lemma is stated about them.

## Findings

| source | as written | input that shows it | evidently intended | confidence | as-written member | corrected member |
|---|---|---|---|---|---|---|
| gms.py:617-622 | The approval's loan and balance updates are still uncommitted on connection `c` when `record_tx` inserts the LoanCredit entry through a second connection. SQLite allows one writer, so that insert waits out the 5-second default timeout and raises "database is locked", and `c`'s updates are never committed | Approving any existing loan whose account exists: balance, log and flag all stay as they were | The loan is marked approved, its amount is credited and one LoanCredit entry is logged | medium; not executed, read from Python's sqlite3 implicit transactions and SQLite's locking | Handlers.ApproveLoanAsWritten (shown by Handlers.ApprovalAsWrittenNeverCredits) | Handlers.ApproveLoan (its contract; kept sound by Reconciliation.ApprovalKeepsSound) |

=== FILE: dashboard.dfy ===
/**
  The read-only figures of the dashboard page: number of customers, total of
  all balances, number of FDs, number of approved loans, and the newest
  transactions.
 */
module Dashboard {
  import opened Ledger

  /** The dashboard's "recent transactions" panel shows this many entries. */
  const RecentLimit: nat := 10

  /** The dashboard's full transaction table shows at most this many entries. */
  const HistoryLimit: nat := 200

  /** The balance stored for account number `a`, or nothing if there is no such row. */
  function BalanceOf(accounts: map<int, Account>, a: int): Money {
    if a in accounts then accounts[a].balance else 0
  }

  /** The total of the balances of account numbers 1 to `n`. */
  function SumBalances(accounts: map<int, Account>, n: nat): int
    decreases n
  {
    if n == 0 then 0 else SumBalances(accounts, n - 1) + BalanceOf(accounts, n)
  }

  /** `SELECT SUM(balance) FROM customers`: account numbers are handed out from 1 to `lastAccount`. */
  function TotalBalance(s: Bank): int {
    SumBalances(s.accounts, s.lastAccount)
  }

  /** `SELECT COUNT(*) FROM loans WHERE approved=1`, counted row by row. */
  function ApprovedCount(loans: seq<Loan>): (c: nat)
    ensures c <= |loans|
    decreases |loans|
  {
    if |loans| == 0 then 0
    else ApprovedCount(loans[..|loans| - 1]) + (if loans[|loans| - 1].approved then 1 else 0)
  }

  /** The identifiers of the approved loans. */
  function ApprovedIds(loans: seq<Loan>): set<nat> {
    set i | 0 <= i < |loans| && loans[i].approved :: i + 1
  }

  /** The figures of the dashboard's statistics cards. */
  datatype Stats = Stats(customers: nat, totalDeposits: int, fixedDeposits: nat, approvedLoans: nat)

  function Summary(s: Bank): Stats {
    Stats(|s.accounts|, TotalBalance(s), |s.fds|, ApprovedCount(s.loans))
  }

  /** Changing one account row moves the total by the change in that row's balance, if the row is counted. */
  lemma {:induction false} SumBalancesUpdate(accounts: map<int, Account>, n: nat, k: int, row: Account)
    ensures SumBalances(accounts[k := row], n)
         == SumBalances(accounts, n) + (if 1 <= k <= n then row.balance - BalanceOf(accounts, k) else 0)
  {
    if n > 0 {
      SumBalancesUpdate(accounts, n - 1, k, row);
    }
  }

  /** With no negative balance the total is not negative either. */
  lemma {:induction false} SumBalancesNonNegative(accounts: map<int, Account>, n: nat)
    requires forall a :: a in accounts ==> accounts[a].balance >= 0
    ensures SumBalances(accounts, n) >= 0
  {
    if n > 0 {
      SumBalancesNonNegative(accounts, n - 1);
    }
  }

  /** The row-by-row count is the number of distinct approved loan identifiers. */
  lemma {:induction false} ApprovedCountIsApprovedIds(loans: seq<Loan>)
    ensures ApprovedCount(loans) == |ApprovedIds(loans)|
    decreases |loans|
  {
    if |loans| > 0 {
      var n := |loans|;
      var prefix := loans[..n - 1];
      ApprovedCountIsApprovedIds(prefix);
      assert n !in ApprovedIds(prefix);
      if loans[n - 1].approved {
        assert ApprovedIds(loans) == ApprovedIds(prefix) + {n};
      } else {
        assert ApprovedIds(loans) == ApprovedIds(prefix);
      }
    }
  }

  /** Setting one loan's flag raises the count by one if the loan was pending, and leaves it alone otherwise. */
  lemma {:induction false} ApprovedCountApprove(loans: seq<Loan>, i: nat)
    requires i < |loans|
    ensures ApprovedCount(loans[i := loans[i].(approved := true)])
         == ApprovedCount(loans) + (if loans[i].approved then 0 else 1)
    decreases |loans|
  {
    var n := |loans|;
    var updated := loans[i := loans[i].(approved := true)];
    if i < n - 1 {
      assert updated[..n - 1] == loans[..n - 1][i := loans[i].(approved := true)];
      ApprovedCountApprove(loans[..n - 1], i);
    } else {
      assert updated[..n - 1] == loans[..n - 1];
    }
  }

  /** A new pending application leaves the count unchanged. */
  lemma ApprovedCountAppendPending(loans: seq<Loan>, loan: Loan)
    requires !loan.approved
    ensures ApprovedCount(loans + [loan]) == ApprovedCount(loans)
  {
  }

  /**
    `ORDER BY date DESC LIMIT limit` over the transaction log: the newest
    `limit` entries (all of them if there are fewer), newest first.
   */
  method RecentTransactions(log: seq<Tx>, limit: nat) returns (recent: seq<Tx>)
    ensures |recent| == if |log| < limit then |log| else limit
    ensures forall j :: 0 <= j < |recent| ==> recent[j] == log[|log| - 1 - j]
  {
    recent := [];
    var i := |log|;
    while i > 0 && |recent| < limit
      invariant 0 <= i <= |log|
      invariant |recent| == |log| - i <= limit
      invariant forall j :: 0 <= j < |recent| ==> recent[j] == log[|log| - 1 - j]
      decreases i
    {
      i := i - 1;
      recent := recent + [log[i]];
    }
  }

  /**
    Everything the dashboard page reads: the statistics cards, the recent
    panel and the full table. The recent panel is the head of the full table.
   */
  method Overview(s: Bank) returns (stats: Stats, recent: seq<Tx>, history: seq<Tx>)
    ensures stats == Summary(s)
    ensures |recent| == if |s.log| < RecentLimit then |s.log| else RecentLimit
    ensures |history| == if |s.log| < HistoryLimit then |s.log| else HistoryLimit
    ensures forall j :: 0 <= j < |history| ==> history[j] == s.log[|s.log| - 1 - j]
    ensures |recent| <= |history| && recent == history[..|recent|]
  {
    stats := Summary(s);
    recent := RecentTransactions(s.log, RecentLimit);
    history := RecentTransactions(s.log, HistoryLimit);
  }
}

=== FILE: handlers.dfy ===
/**
  The ledger rules of the web handlers, each as one atomic transition on a
  `Bank`. Form fields arrive as text ("" when the field is blank or missing);
  amounts arrive already parsed, `None` when the program's `safe_float`
  rejected them.

  The program writes the balance and the log entry through separate database
  connections. Deposit and withdrawal commit the balance first and then call
  `int()` on the account text to log the entry; text that SQLite matched but
  `int()` refuses ("1.0") raises there, after the balance was committed, and
  that outcome is `UnloggedCommit`. Apart from such exceptions, every handler
  here is a single step that does both or neither.
 */
module Handlers {
  import opened Wrappers
  import opened Numerals
  import opened Ledger

  /** The state a handler leaves committed: its result, or what it had committed before it raised. */
  function Committed(r: Result<Bank, Failure>): (b: Option<Bank>)
    ensures r.Ok? ==> b == Some(r.value)
    ensures r.Err? ==> (b.Some? <==> r.error.UnloggedCommit?)
    ensures b.Some? && r.Err? ==> b.value == r.error.committed
  {
    match r
    case Ok(next) => Some(next)
    case Err(UnloggedCommit(committed)) => Some(committed)
    case Err(_) => None
  }

  /**
    The note of the entry that records an FD: "FD <tenure> mo". The tenure
    has already been stored, so it fits SQLite's INTEGER.
   */
  function FdNote(tenure: int): (note: string)
    requires FitsSqlInt(tenure)
    ensures |note| > 6 && note[..3] == "FD " && note[|note| - 3..] == " mo"
    ensures ParseInt(note[3..|note| - 3]) == Some(tenure)
  {
    var digits := IntToString(tenure);
    var note := "FD " + digits + " mo";
    assert note[3..|note| - 3] == digits;
    SixtyFourBitDigits(tenure);
    ParseIntOfIntToString(tenure);
    note
  }

  /** Maturity of a fixed deposit: principal plus simple interest at `FdRate` over `tenure` months. */
  function Maturity(amount: Money, tenure: int): (m: real)
    ensures m == amount as real * (1.0 + FdRate * (tenure as real) / 12.0)
    ensures amount > 0 && tenure > 0 ==> m > amount as real
  {
    var interest := amount as real * FdRate * (tenure as real / 12.0);
    assert amount > 0 && tenure > 0 ==> interest > 0.0 by {
      if amount > 0 && tenure > 0 {
        assert amount as real * FdRate > 0.0;
      }
    }
    amount as real + interest
  }

  /** The opening form passes the program's own checks: every field present and the age an integer. */
  predicate OpeningFormValid(name: string, age: string, mobile: string, initial: Option<Money>, pin: string) {
    name != [] && mobile != [] && initial.Some? && pin != [] && PythonInt(age).Some?
  }

  /**
    Opening an account. Name, age, mobile and PIN must be non-empty (after the
    program strips them) and the initial amount must have parsed; age must then
    be an integer. The program bounds neither the age nor the sign of the
    initial amount, but the INSERT raises, writing nothing, when the age does
    not fit SQLite's INTEGER or AUTOINCREMENT has handed out its last key.
   */
  function OpenAccount(s: Bank, name: string, age: string, mobile: string, initial: Option<Money>, pin: string)
    : (r: Result<Bank, Failure>)
    ensures name == [] || age == [] || mobile == [] || initial.None? || pin == [] ==> r == Err(FieldsRequired)
    ensures name != [] && age != [] && mobile != [] && initial.Some? && pin != [] && PythonInt(age).None?
            ==> r == Err(AgeNotNumber)
    ensures (&& OpeningFormValid(name, age, mobile, initial, pin)
             && (!FitsSqlInt(PythonInt(age).value) || s.lastAccount >= MaxSqlInt)) ==> r == Err(ServerError)
    ensures r.Ok? <==> (&& OpeningFormValid(name, age, mobile, initial, pin)
                        && FitsSqlInt(PythonInt(age).value) && s.lastAccount < MaxSqlInt)
    ensures r.Ok? ==>
      var k := s.lastAccount + 1;
      && r.value.lastAccount == k
      && r.value.accounts == s.accounts[k := Account(name, PythonInt(age).value, mobile, pin, initial.value)]
      && (initial.value > 0 ==> r.value.log == s.log + [Tx(k, Deposit, initial.value, "Initial deposit")])
      && (initial.value <= 0 ==> r.value.log == s.log)
      && r.value.fds == s.fds && r.value.loans == s.loans
  {
    if name == [] || age == [] || mobile == [] || initial.None? || pin == [] then Err(FieldsRequired)
    else match PythonInt(age)
      case None => Err(AgeNotNumber)
      case Some(years) =>
        if !FitsSqlInt(years) || s.lastAccount >= MaxSqlInt then Err(ServerError)
        else
          var k := s.lastAccount + 1;
          var log := if initial.value > 0 then s.log + [Tx(k, Deposit, initial.value, "Initial deposit")] else s.log;
          Ok(s.(accounts := s.accounts[k := Account(name, years, mobile, pin, initial.value)], lastAccount := k, log := log))
  }

  /** Account `a`'s balance moved by `delta`; no other account, and no other table, changes. */
  function MoveBalance(s: Bank, a: int, delta: Money): (s': Bank)
    requires a in s.accounts
    ensures BalanceMoved(s.accounts, s'.accounts, a, delta)
    ensures s'.log == s.log && s'.lastAccount == s.lastAccount && s'.fds == s.fds && s'.loans == s.loans
  {
    var holder := s.accounts[a];
    s.(accounts := s.accounts[a := holder.(balance := holder.balance + delta)])
  }

  /** The deposit guards pass: a positive amount, for an account SQLite matches. */
  predicate Creditable(s: Bank, acc: string, amt: Option<Money>) {
    amt.Some? && amt.value > 0 && FindAccount(s, acc).Some?
  }

  /** The withdrawal guards pass: the deposit guards, and the account holds at least the amount. */
  predicate Debitable(s: Bank, acc: string, amt: Option<Money>) {
    Creditable(s, acc, amt) && s.accounts[FindAccount(s, acc).value].balance >= amt.value
  }

  /**
    A deposit: a blank account field or a missing or non-positive amount is
    refused first, then an account SQLite does not match; otherwise the balance
    rises by the amount and is committed. Logging the Deposit entry (empty
    note) needs `int()` of the account text; when that raises, the credit
    stays committed and nothing is logged.
   */
  function MakeDeposit(s: Bank, acc: string, amt: Option<Money>): (r: Result<Bank, Failure>)
    ensures acc == [] || amt.None? || amt.value <= 0 ==> r == Err(InvalidRequest)
    ensures acc != [] && amt.Some? && amt.value > 0 && FindAccount(s, acc).None? ==> r == Err(AccountNotFound)
    ensures r.Ok? <==> Creditable(s, acc, amt) && PythonInt(acc).Some?
    ensures r.Err? && r.error.UnloggedCommit? <==> Creditable(s, acc, amt) && PythonInt(acc).None?
    ensures r.Ok? ==> PythonInt(acc) == FindAccount(s, acc)
    ensures r.Ok? ==>
      var a := FindAccount(s, acc).value;
      && BalanceMoved(s.accounts, r.value.accounts, a, amt.value)
      && r.value.log == s.log + [Tx(a, Deposit, amt.value, "")]
      && r.value.lastAccount == s.lastAccount && r.value.fds == s.fds && r.value.loans == s.loans
    ensures r.Err? && r.error.UnloggedCommit? ==>
      var a := FindAccount(s, acc).value;
      && BalanceMoved(s.accounts, r.error.committed.accounts, a, amt.value)
      && r.error.committed.log == s.log
      && r.error.committed.lastAccount == s.lastAccount && r.error.committed.fds == s.fds
      && r.error.committed.loans == s.loans
  {
    if acc == [] || amt.None? || amt.value <= 0 then Err(InvalidRequest)
    else match FindAccount(s, acc)
      case None => Err(AccountNotFound)
      case Some(a) =>
        var credited := MoveBalance(s, a, amt.value);
        if PythonInt(acc).None? then Err(UnloggedCommit(credited))
        else Ok(credited.(log := s.log + [Tx(a, Deposit, amt.value, "")]))
  }

  /**
    A withdrawal: the deposit's guards, then a balance below the amount is
    refused; otherwise the balance falls by the amount and is committed, and
    one Withdraw entry is logged unless `int()` of the account text raises.
   */
  function MakeWithdrawal(s: Bank, acc: string, amt: Option<Money>): (r: Result<Bank, Failure>)
    ensures acc == [] || amt.None? || amt.value <= 0 ==> r == Err(InvalidRequest)
    ensures acc != [] && amt.Some? && amt.value > 0 && FindAccount(s, acc).None? ==> r == Err(AccountNotFound)
    ensures (acc != [] && amt.Some? && amt.value > 0 && FindAccount(s, acc).Some?
             && s.accounts[FindAccount(s, acc).value].balance < amt.value) ==> r == Err(InsufficientBalance)
    ensures r.Ok? <==> Debitable(s, acc, amt) && PythonInt(acc).Some?
    ensures r.Err? && r.error.UnloggedCommit? <==> Debitable(s, acc, amt) && PythonInt(acc).None?
    ensures r.Ok? ==> PythonInt(acc) == FindAccount(s, acc)
    ensures r.Ok? ==>
      var a := FindAccount(s, acc).value;
      && BalanceMoved(s.accounts, r.value.accounts, a, -amt.value)
      && r.value.accounts[a].balance >= 0
      && r.value.log == s.log + [Tx(a, Withdraw, amt.value, "")]
      && r.value.lastAccount == s.lastAccount && r.value.fds == s.fds && r.value.loans == s.loans
    ensures r.Err? && r.error.UnloggedCommit? ==>
      var a := FindAccount(s, acc).value;
      && BalanceMoved(s.accounts, r.error.committed.accounts, a, -amt.value)
      && r.error.committed.accounts[a].balance >= 0
      && r.error.committed.log == s.log
      && r.error.committed.lastAccount == s.lastAccount && r.error.committed.fds == s.fds
      && r.error.committed.loans == s.loans
  {
    if acc == [] || amt.None? || amt.value <= 0 then Err(InvalidRequest)
    else match FindAccount(s, acc)
      case None => Err(AccountNotFound)
      case Some(a) =>
        var holder := s.accounts[a];
        if holder.balance < amt.value then Err(InsufficientBalance)
        else
          var debited := MoveBalance(s, a, -amt.value);
          if PythonInt(acc).None? then Err(UnloggedCommit(debited))
          else Ok(debited.(log := s.log + [Tx(a, Withdraw, amt.value, "")]))
  }

  /**
    The FD and loan forms' common guard, checked after the tenure parsed: a
    non-blank account field, a positive amount and a positive tenure.
   */
  predicate TermFormValid(acc: string, amt: Option<Money>, tenure: string) {
    PythonInt(tenure).Some? && acc != [] && amt.Some? && amt.value > 0 && PythonInt(tenure).value > 0
  }

  /**
    The INSERT's parameters can be bound: `int()` reads the account text, and
    the tenure fits SQLite's INTEGER.
   */
  predicate Insertable(acc: string, tenure: string) {
    PythonInt(acc).Some? && PythonInt(tenure).Some? && FitsSqlInt(PythonInt(tenure).value)
  }

  /** The FD guards pass: the form is valid, and a matched account holds at least the amount. */
  predicate Fundable(s: Bank, acc: string, amt: Option<Money>, tenure: string) {
    TermFormValid(acc, amt, tenure) && FindAccount(s, acc).Some?
    && s.accounts[FindAccount(s, acc).value].balance >= amt.value
  }

  /**
    The writes of a fixed deposit once every guard has passed: the FD row,
    the principal's debit and the FD_Create entry noting the tenure.
   */
  function OpenFd(s: Bank, a: int, amount: Money, months: int): (s': Bank)
    requires a in s.accounts && 0 < amount <= s.accounts[a].balance && 0 < months <= MaxSqlInt
    ensures BalanceMoved(s.accounts, s'.accounts, a, -amount)
    ensures s'.accounts[a].balance >= 0
    ensures s'.fds == s.fds + [FixedDeposit(a, amount, FdRate, months, Maturity(amount, months))]
    ensures s'.fds[|s.fds|].maturity > amount as real
    ensures s'.log == s.log + [Tx(a, FdCreate, amount, FdNote(months))]
    ensures s'.lastAccount == s.lastAccount && s'.loans == s.loans
  {
    MoveBalance(s, a, -amount).(fds := s.fds + [FixedDeposit(a, amount, FdRate, months, Maturity(amount, months))],
                                log := s.log + [Tx(a, FdCreate, amount, FdNote(months))])
  }

  /**
    Opening a fixed deposit. The tenure must parse as an integer (checked
    before anything else), then the account field must be non-blank and amount
    and tenure positive, the account must exist and hold at least the amount.
    Storing the FD needs `int()` of the account text and a tenure that fits
    SQLite's INTEGER; otherwise it raises before anything is written. On success the principal
    leaves the balance, one FD is stored whose maturity exceeds it, and one
    FD_Create entry noting the tenure is logged.
   */
  function CreateFd(s: Bank, acc: string, amt: Option<Money>, tenure: string): (r: Result<Bank, Failure>)
    ensures PythonInt(tenure).None? ==> r == Err(InvalidTenure)
    ensures PythonInt(tenure).Some? && !TermFormValid(acc, amt, tenure) ==> r == Err(InvalidRequest)
    ensures TermFormValid(acc, amt, tenure) && FindAccount(s, acc).None? ==> r == Err(AccountNotFound)
    ensures (TermFormValid(acc, amt, tenure) && FindAccount(s, acc).Some?
             && s.accounts[FindAccount(s, acc).value].balance < amt.value) ==> r == Err(InsufficientBalance)
    ensures Fundable(s, acc, amt, tenure) && !Insertable(acc, tenure) ==> r == Err(ServerError)
    ensures r.Ok? <==> Fundable(s, acc, amt, tenure) && Insertable(acc, tenure)
    ensures r.Ok? ==>
      var a := FindAccount(s, acc).value;
      var months := PythonInt(tenure).value;
      && PythonInt(acc) == Some(a)
      && BalanceMoved(s.accounts, r.value.accounts, a, -amt.value)
      && r.value.accounts[a].balance >= 0
      && r.value.fds == s.fds + [FixedDeposit(a, amt.value, FdRate, months, Maturity(amt.value, months))]
      && Maturity(amt.value, months) > amt.value as real
      && r.value.log == s.log + [Tx(a, FdCreate, amt.value, FdNote(months))]
      && r.value.lastAccount == s.lastAccount && r.value.loans == s.loans
  {
    match PythonInt(tenure)
    case None => Err(InvalidTenure)
    case Some(months) =>
      if acc == [] || amt.None? || amt.value <= 0 || months <= 0 then Err(InvalidRequest)
      else match FindAccount(s, acc)
        case None => Err(AccountNotFound)
        case Some(a) =>
          var holder := s.accounts[a];
          if holder.balance < amt.value then Err(InsufficientBalance)
          else if !Insertable(acc, tenure) then Err(ServerError)
          else Ok(OpenFd(s, a, amt.value, months))
  }

  /**
    Applying for a loan: the same tenure, field and account guards as an FD,
    with no balance check, and the same `int()` of the account text and
    bound on the tenure at the insert. A pending loan at `LoanRate` is stored; balances and the log
    are not touched.
   */
  function ApplyForLoan(s: Bank, acc: string, amt: Option<Money>, tenure: string): (r: Result<Bank, Failure>)
    ensures PythonInt(tenure).None? ==> r == Err(InvalidTenure)
    ensures PythonInt(tenure).Some? && !TermFormValid(acc, amt, tenure) ==> r == Err(InvalidRequest)
    ensures TermFormValid(acc, amt, tenure) && FindAccount(s, acc).None? ==> r == Err(AccountNotFound)
    ensures TermFormValid(acc, amt, tenure) && FindAccount(s, acc).Some? && !Insertable(acc, tenure) ==> r == Err(ServerError)
    ensures r.Ok? <==> TermFormValid(acc, amt, tenure) && FindAccount(s, acc).Some? && Insertable(acc, tenure)
    ensures r.Ok? ==>
      && PythonInt(acc) == FindAccount(s, acc)
      && r.value.loans == s.loans + [Loan(FindAccount(s, acc).value, amt.value, LoanRate, PythonInt(tenure).value, false)]
      && r.value.accounts == s.accounts && r.value.log == s.log
      && r.value.lastAccount == s.lastAccount && r.value.fds == s.fds
  {
    match PythonInt(tenure)
    case None => Err(InvalidTenure)
    case Some(months) =>
      if acc == [] || amt.None? || amt.value <= 0 || months <= 0 then Err(InvalidRequest)
      else match FindAccount(s, acc)
        case None => Err(AccountNotFound)
        case Some(a) =>
          if !Insertable(acc, tenure) then Err(ServerError)
          else Ok(s.(loans := s.loans + [Loan(a, amt.value, LoanRate, months, false)]))
  }

  /**
    The administrator's approval of loan `lid`. A blank id changes nothing; an
    unknown one is refused. Otherwise the loan is marked approved whatever its
    current flag, and if its account exists that balance rises by the loan
    amount and one LoanCredit entry noting "LoanID:<lid>" is logged, so
    approving twice credits twice. A loan whose account is gone is still
    marked approved and credits nothing. This is the approval the handler sets
    out to perform; `ApproveLoanAsWritten` is what its storage calls do.
   */
  function ApproveLoan(s: Bank, lid: string): (r: Result<Bank, Failure>)
    ensures lid == [] ==> r == Ok(s)
    ensures r.Err? <==> lid != [] && FindLoan(s, lid).None?
    ensures r.Err? ==> r.error == LoanNotFound
    ensures r.Ok? && lid != [] ==>
      var i := FindLoan(s, lid).value;
      var loan := s.loans[i];
      && r.value.loans == s.loans[i := loan.(approved := true)]
      && (loan.account in s.accounts ==>
            && BalanceMoved(s.accounts, r.value.accounts, loan.account, loan.amount)
            && r.value.log == s.log + [Tx(loan.account, LoanCredit, loan.amount, "LoanID:" + lid)])
      && (loan.account !in s.accounts ==> r.value.accounts == s.accounts && r.value.log == s.log)
      && r.value.lastAccount == s.lastAccount && r.value.fds == s.fds
  {
    if lid == [] then Ok(s)
    else match FindLoan(s, lid)
      case None => Err(LoanNotFound)
      case Some(i) =>
        var loan := s.loans[i];
        var approved := s.(loans := s.loans[i := loan.(approved := true)]);
        if loan.account in s.accounts then
          Ok(MoveBalance(approved, loan.account, loan.amount).(log := s.log + [Tx(loan.account, LoanCredit, loan.amount, "LoanID:" + lid)]))
        else Ok(approved)
  }

  /**
    Approval as the program's database calls actually play out. The handler's
    own connection still holds its uncommitted loan and balance updates, and
    with them SQLite's single write lock, when `record_tx` opens a second
    connection to insert the LoanCredit entry. That insert waits out the
    connection timeout and raises "database is locked", so the handler's
    updates are never committed. Only a loan whose account is gone, where
    `record_tx` is not called, gets its flag set.
   */
  function ApproveLoanAsWritten(s: Bank, lid: string): (r: Result<Bank, Failure>)
    ensures lid == [] ==> r == Ok(s)
    ensures lid != [] && FindLoan(s, lid).None? ==> r == Err(LoanNotFound)
    ensures FindLoan(s, lid).Some? && s.loans[FindLoan(s, lid).value].account in s.accounts ==> r == Err(ServerError)
    ensures lid != [] && FindLoan(s, lid).Some? && s.loans[FindLoan(s, lid).value].account !in s.accounts ==>
              r == Ok(s.(loans := s.loans[FindLoan(s, lid).value := s.loans[FindLoan(s, lid).value].(approved := true)]))
  {
    if lid == [] then Ok(s)
    else match FindLoan(s, lid)
      case None => Err(LoanNotFound)
      case Some(i) =>
        if s.loans[i].account in s.accounts then Err(ServerError)
        else Ok(s.(loans := s.loans[i := s.loans[i].(approved := true)]))
  }

  /**
    The two approvals differ exactly on a loan whose account exists: the
    intended one credits the loan amount and logs it, the one the program
    runs fails and commits nothing. Elsewhere they agree.
   */
  lemma ApprovalAsWrittenNeverCredits(s: Bank, lid: string)
    ensures var r := ApproveLoanAsWritten(s, lid);
      Committed(r).Some? ==> Committed(r).value.accounts == s.accounts && Committed(r).value.log == s.log
    ensures FindLoan(s, lid).Some? && s.loans[FindLoan(s, lid).value].account in s.accounts ==>
      var loan := s.loans[FindLoan(s, lid).value];
      && ApproveLoanAsWritten(s, lid) == Err(ServerError)
      && ApproveLoan(s, lid).Ok?
      && ApproveLoan(s, lid).value.accounts[loan.account].balance == s.accounts[loan.account].balance + loan.amount
      && |ApproveLoan(s, lid).value.log| == |s.log| + 1
    ensures !(FindLoan(s, lid).Some? && s.loans[FindLoan(s, lid).value].account in s.accounts) ==>
      ApproveLoanAsWritten(s, lid) == ApproveLoan(s, lid)
  {
  }

  /**
    The ATM login: succeeds with the account number exactly when the account
    exists and its stored PIN equals the one given. A missing PIN field is
    the empty text, which never matches a PIN `OpenAccount` stored.
   */
  function AtmCheck(s: Bank, acc: string, pin: string): (r: Result<int, Failure>)
    ensures r.Ok? <==> FindAccount(s, acc).Some? && s.accounts[FindAccount(s, acc).value].pin == pin
    ensures r.Ok? ==> r.value in s.accounts && SqlKey(acc) == Some(r.value)
    ensures FindAccount(s, acc).None? ==> r == Err(AccountNotFound)
    ensures FindAccount(s, acc).Some? && s.accounts[FindAccount(s, acc).value].pin != pin ==> r == Err(IncorrectPin)
  {
    match FindAccount(s, acc)
    case None => Err(AccountNotFound)
    case Some(a) => if s.accounts[a].pin != pin then Err(IncorrectPin) else Ok(a)
  }
}

=== FILE: ledger.dfy ===
/**
  The bank's state with the storage stripped away: the four tables
  (customers, transactions, fds, loans) become one immutable value.
 */
module Ledger {
  import opened Wrappers
  import opened Numerals

  /** Money in integer paise; the program keeps rupees as binary floats. */
  type Money = int

  /** A row of the customers table; the account number is its key in `Bank.accounts`. */
  datatype Account = Account(name: string, age: int, mobile: string, pin: string, balance: Money)

  /** The four `type` strings the program writes into the transactions table. */
  datatype TxKind = Deposit | Withdraw | FdCreate | LoanCredit

  /** A row of the transactions table; its timestamp is replaced by its position in the log. */
  datatype Tx = Tx(account: int, kind: TxKind, amount: Money, note: string)

  /** A row of the fds table; its identifier is its position in `Bank.fds` plus one. */
  datatype FixedDeposit = FixedDeposit(account: int, amount: Money, rate: real, tenureMonths: int, maturity: real)

  /** A row of the loans table; its identifier is its position in `Bank.loans` plus one. */
  datatype Loan = Loan(account: int, amount: Money, rate: real, tenureMonths: int, approved: bool)

  /**
    The whole database. `lastAccount` is the AUTOINCREMENT counter of the
    customers table: the next account opened gets `lastAccount + 1`.
   */
  datatype Bank = Bank(
    accounts: map<int, Account>,
    lastAccount: nat,
    log: seq<Tx>,
    fds: seq<FixedDeposit>,
    loans: seq<Loan>)

  /**
    Why a handler refused a request: one of the program's flash messages, or
    an exception the handler does not catch. `UnloggedCommit` carries the state
    the program had already committed when it raised.
   */
  datatype Failure =
    | FieldsRequired       // "All fields required"
    | AgeNotNumber         // "Age must be number"
    | InvalidRequest       // "Valid account & amount required" (and "... amount and tenure required")
    | InvalidTenure        // "Invalid tenure"
    | AccountNotFound      // "Account not found"
    | InsufficientBalance  // "Insufficient balance"
    | LoanNotFound         // "Loan ID not found"
    | IncorrectPin         // "Incorrect PIN"
    | ServerError          // an uncaught exception (ValueError, OverflowError, sqlite3 error) before anything was committed
    | UnloggedCommit(committed: Bank)  // an uncaught exception after the balance update was committed

  /** Annual simple-interest rate of every fixed deposit. */
  const FdRate: real := 0.055

  /** Interest rate recorded on every loan application. */
  const LoanRate: real := 0.1

  /**
    The range of SQLite's INTEGER, a 64-bit signed integer. The sqlite3
    driver refuses to bind a Python int outside it, and AUTOINCREMENT hands
    out no key beyond its top.
   */
  const MinSqlInt: int := -0x8000_0000_0000_0000
  const MaxSqlInt: int := 0x7FFF_FFFF_FFFF_FFFF

  predicate FitsSqlInt(i: int) {
    MinSqlInt <= i <= MaxSqlInt
  }

  /** A freshly initialised database: empty tables, counters at zero. */
  const EmptyBank := Bank(map[], 0, [], [], [])

  /** The account an `acc` form field refers to: the key SQLite matches the text against, if that row exists. */
  function FindAccount(s: Bank, acc: string): (r: Option<int>)
    ensures r.Some? ==> r.value in s.accounts && SqlKey(acc) == r
    ensures r.None? ==> SqlKey(acc).None? || SqlKey(acc).value !in s.accounts
    ensures r.Some? && PythonInt(acc).Some? ==> PythonInt(acc) == r
  {
    match SqlKey(acc)
    case Some(a) => if a in s.accounts then Some(a) else None
    case None => None
  }

  /** The position in `s.loans` of the loan a `loan_id` form field names, if that loan exists. */
  function FindLoan(s: Bank, lid: string): (r: Option<nat>)
    ensures r.Some? ==> r.value < |s.loans| && SqlKey(lid) == Some(r.value + 1)
    ensures r.None? ==> SqlKey(lid).None? || !(1 <= SqlKey(lid).value <= |s.loans|)
  {
    match SqlKey(lid)
    case Some(id) => if 1 <= id <= |s.loans| then Some(id - 1) else None
    case None => None
  }

  /** The amount a log entry adds to its account: credits count up, debits down. */
  function Signed(t: Tx): int {
    match t.kind
    case Deposit => t.amount
    case LoanCredit => t.amount
    case Withdraw => -t.amount
    case FdCreate => -t.amount
  }

  /** The signed sum of the entries of `log` that belong to account `a`. */
  function Net(log: seq<Tx>, a: int): int
    decreases |log|
  {
    if |log| == 0 then 0
    else Net(log[..|log| - 1], a) + (if log[|log| - 1].account == a then Signed(log[|log| - 1]) else 0)
  }

  /** The signed sum of every entry of `log`, whatever its account. */
  function NetAll(log: seq<Tx>): int
    decreases |log|
  {
    if |log| == 0 then 0 else NetAll(log[..|log| - 1]) + Signed(log[|log| - 1])
  }

  /** Appending one entry moves only its own account's net, by its signed amount. */
  lemma NetAppend(log: seq<Tx>, t: Tx, a: int)
    ensures Net(log + [t], a) == Net(log, a) + (if t.account == a then Signed(t) else 0)
    ensures NetAll(log + [t]) == NetAll(log) + Signed(t)
  {
  }

  /** An account no entry mentions has net zero. */
  lemma {:induction false} NetOfUnmentioned(log: seq<Tx>, a: int)
    requires forall i :: 0 <= i < |log| ==> log[i].account != a
    ensures Net(log, a) == 0
  {
    if |log| > 0 {
      NetOfUnmentioned(log[..|log| - 1], a);
    }
  }

  /**
    `after` is `before` with account `a`'s balance moved by `delta`; every other
    account, and every other field of `a`, is untouched.
   */
  ghost predicate BalanceMoved(before: map<int, Account>, after: map<int, Account>, a: int, delta: Money)
    requires a in before
  {
    && after.Keys == before.Keys
    && after[a] == before[a].(balance := before[a].balance + delta)
    && forall b :: b in before && b != a ==> after[b] == before[b]
  }
}

=== FILE: numerals.dfy ===
/**
  Decimal text of integers: Python's `int()` on a form field and `str()` of
  an integer as it appears in a transaction note ("FD 12 mo").
 */
module Numerals {
  import opened Wrappers

  predicate IsDigit(c: char) {
    '0' <= c <= '9'
  }

  predicate AllDigits(s: string) {
    forall i :: 0 <= i < |s| ==> IsDigit(s[i])
  }

  function DigitValue(c: char): (d: nat)
    requires IsDigit(c)
    ensures d < 10
  {
    c as int - '0' as int
  }

  function DigitChar(d: nat): (c: char)
    requires d < 10
    ensures IsDigit(c) && DigitValue(c) == d
  {
    ('0' as int + d) as char
  }

  /** The value of a run of decimal digits, most significant first; leading zeros are allowed. */
  function DigitsValue(s: string): nat
    requires AllDigits(s)
    decreases |s|
  {
    if |s| == 0 then 0 else DigitsValue(s[..|s| - 1]) * 10 + DigitValue(s[|s| - 1])
  }

  /** Python's `str(n)` for a non-negative integer: the canonical digits, no leading zero. */
  function NatToString(n: nat): (s: string)
    ensures |s| > 0 && AllDigits(s)
    ensures n > 0 ==> s[0] != '0'
    ensures n == 0 ==> s == "0"
  {
    if n < 10 then [DigitChar(n)] else NatToString(n / 10) + [DigitChar(n % 10)]
  }

  /** Python's `str(i)`: a minus sign before the digits of a negative number. */
  function IntToString(i: int): (s: string)
    ensures |s| > 0
    ensures i < 0 <==> s[0] == '-'
  {
    if i < 0 then "-" + NatToString(-i) else NatToString(i)
  }


  /** The number of decimal digits `str(i)` writes, the sign not counted. */
  function DigitCount(i: int): nat {
    |NatToString(if i < 0 then -i else i)|
  }

  /**
    CPython's default limit on the digits `int()` reads from, and `str()`
    writes to, decimal text: longer text raises ValueError.
   */
  const MaxStrDigits: nat := 4300

  predicate IsSign(c: char) {
    c == '-' || c == '+'
  }

  /** An optional sign followed by one to `MaxStrDigits` ASCII digits, leading zeros counted. */
  predicate IntLiteral(s: string) {
    || (0 < |s| <= MaxStrDigits && AllDigits(s))
    || (1 < |s| <= MaxStrDigits + 1 && IsSign(s[0]) && AllDigits(s[1..]))
  }

  /** The core of Python's `int(s)`: it reads exactly the integer literals; anything else raises, which is None here. */
  function ParseInt(s: string): (r: Option<int>)
    ensures r.Some? <==> IntLiteral(s)
    ensures 0 < |s| <= MaxStrDigits && AllDigits(s) ==> r == Some(DigitsValue(s))
    ensures 1 < |s| <= MaxStrDigits + 1 && s[0] == '+' && AllDigits(s[1..]) ==> r == Some(DigitsValue(s[1..]))
    ensures 1 < |s| <= MaxStrDigits + 1 && s[0] == '-' && AllDigits(s[1..]) ==> r == Some(-(DigitsValue(s[1..]) as int))
  {
    if |s| == 0 then None
    else if IsSign(s[0]) then
      var digits := s[1..];
      if 0 < |digits| <= MaxStrDigits && AllDigits(digits) then
        Some(if s[0] == '-' then -(DigitsValue(digits) as int) else DigitsValue(digits))
      else None
    else if |s| <= MaxStrDigits && AllDigits(s) then Some(DigitsValue(s))
    else None
  }

  /** The ASCII blanks that both `str.strip()` and SQLite's numeric conversion skip. */
  predicate IsSpace(c: char) {
    c == ' ' || '\t' <= c <= '\r'
  }

  predicate AllSpace(s: string) {
    forall i :: 0 <= i < |s| ==> IsSpace(s[i])
  }

  /** `s` without its leading blanks: what is left does not start with one (see `TrimStartRemovesBlanks`). */
  function TrimStart(s: string): (t: string)
    ensures |t| <= |s|
    ensures |t| > 0 ==> !IsSpace(t[0])
    decreases |s|
  {
    if |s| > 0 && IsSpace(s[0]) then TrimStart(s[1..]) else s
  }

  /** `s` without its trailing blanks: what is left does not end with one (see `TrimEndRemovesBlanks`). */
  function TrimEnd(s: string): (t: string)
    ensures |t| <= |s| && t == s[..|t|]
    ensures |t| > 0 ==> !IsSpace(t[|t| - 1])
    decreases |s|
  {
    if |s| > 0 && IsSpace(s[|s| - 1]) then TrimEnd(s[..|s| - 1]) else s
  }

  /** `TrimStart` keeps the end of `s` and removes only blanks before it. */
  lemma {:induction false} TrimStartRemovesBlanks(s: string)
    ensures var t := TrimStart(s);
      t == s[|s| - |t|..] && AllSpace(s[..|s| - |t|])
    decreases |s|
  {
    if |s| > 0 && IsSpace(s[0]) {
      var t := TrimStart(s[1..]);
      TrimStartRemovesBlanks(s[1..]);
      assert s[1..][..|s| - 1 - |t|] == s[1..|s| - |t|];
    }
  }

  /** `TrimEnd` keeps the start of `s` and removes only blanks after it. */
  lemma {:induction false} TrimEndRemovesBlanks(s: string)
    ensures AllSpace(s[|TrimEnd(s)|..])
    decreases |s|
  {
    if |s| > 0 && IsSpace(s[|s| - 1]) {
      var t := TrimEnd(s[..|s| - 1]);
      TrimEndRemovesBlanks(s[..|s| - 1]);
      assert s[..|s| - 1][|t|..] == s[|t|..|s| - 1];
    }
  }

  /** Drops the blanks `int()` and SQLite skip (space and `\t` to `\r`) from both ends: neither end of the result is blank, and unblanked text is left alone. */
  function Trim(s: string): (t: string)
    ensures |t| <= |s|
    ensures |t| > 0 ==> !IsSpace(t[0]) && !IsSpace(t[|t| - 1])
    ensures |s| == 0 || (!IsSpace(s[0]) && !IsSpace(s[|s| - 1])) ==> t == s
  {
    TrimEnd(TrimStart(s))
  }

  /** Python's `int(s)` on a `str`: surrounding blanks are dropped, then the sign and digits are read. */
  function PythonInt(s: string): (r: Option<int>)
    ensures |s| == 0 || (!IsSpace(s[0]) && !IsSpace(s[|s| - 1])) ==> r == ParseInt(s)
  {
    ParseInt(Trim(s))
  }

  /** Blanks before `t` are exactly what `TrimStart` removes. */
  lemma TrimStartPadded(pre: string, t: string)
    requires AllSpace(pre) && (|t| == 0 || !IsSpace(t[0]))
    ensures TrimStart(pre + t) == t
  {
    var s := pre + t;
    var r := TrimStart(s);
    TrimStartRemovesBlanks(s);
    assert s[|pre|..] == t;
  }

  /** Blanks after `t` are exactly what `TrimEnd` removes. */
  lemma TrimEndPadded(t: string, post: string)
    requires AllSpace(post) && (|t| == 0 || !IsSpace(t[|t| - 1]))
    ensures TrimEnd(t + post) == t
  {
    var s := t + post;
    var r := TrimEnd(s);
    TrimEndRemovesBlanks(s);
    if |r| < |t| {
      assert s[|r|..][|t| - 1 - |r|] == t[|t| - 1];
    }
    assert s[..|t|] == t;
  }

  /** `int()` reads text with blanks around it as it reads the text alone. */
  lemma PythonIntIgnoresBlanks(pre: string, t: string, post: string)
    requires AllSpace(pre) && AllSpace(post)
    requires |t| == 0 || (!IsSpace(t[0]) && !IsSpace(t[|t| - 1]))
    ensures Trim(pre + t + post) == t
    ensures PythonInt(pre + t + post) == ParseInt(t)
  {
    if |t| == 0 {
      assert pre + t + post == (pre + post) + t;
      assert AllSpace(pre + post);
      TrimStartPadded(pre + post, t);
    } else {
      assert pre + t + post == pre + (t + post);
      TrimStartPadded(pre, t + post);
      TrimEndPadded(t, post);
    }
  }

  /** The position of the first '.' in `s`, or `|s|` if there is none. */
  function DotIndex(s: string): (k: nat)
    ensures k <= |s|
    ensures k < |s| ==> s[k] == '.'
    decreases |s|
  {
    if |s| == 0 || s[0] == '.' then 0 else 1 + DotIndex(s[1..])
  }

  /** No '.' comes before `DotIndex(s)`. */
  lemma {:induction false} DotIndexIsFirst(s: string, i: nat)
    requires i < |s| && s[i] == '.'
    ensures DotIndex(s) <= i
    decreases |s|
  {
    if s[0] != '.' {
      DotIndexIsFirst(s[1..], i - 1);
    }
  }

  predicate AllZeros(s: string) {
    forall i :: 0 <= i < |s| ==> s[i] == '0'
  }

  /** 2^53: every whole number up to it is exactly a binary64 double. */
  const TwoTo53: nat := 0x20_0000_0000_0000

  /**
    The gap between neighbouring binary64 doubles around `v`: 1 below 2^53,
    doubling with each power of two above it, so that `v / u` always has at
    most 53 bits.
   */
  function Ulp(v: nat): (u: nat)
    ensures u > 0
    ensures v < TwoTo53 * u
    ensures u > 1 ==> TwoTo53 * u <= 2 * v
    decreases v
  {
    if v < TwoTo53 then 1 else 2 * Ulp(v / 2)
  }

  /**
    The binary64 double nearest to `v`, ties going to the even neighbour, as
    the conversion of decimal text to REAL rounds.
   */
  function NearestDouble(v: nat): (d: nat)
    ensures d % Ulp(v) == 0
    ensures -(Ulp(v) as int) <= 2 * (d as int - v) <= Ulp(v)
    ensures 2 * (d as int - v) == Ulp(v) || 2 * (v as int - d) == Ulp(v) ==> (d / Ulp(v)) % 2 == 0
    ensures v <= TwoTo53 ==> d == v
  {
    SmallIsExact(v);
    RoundToGrid(v, Ulp(v))
  }

  /** The multiple of `u` nearest to `v`, ties going to an even multiple. */
  function RoundToGrid(v: nat, u: nat): (d: nat)
    requires u > 0
    ensures d % u == 0
    ensures -(u as int) <= 2 * (d as int - v) <= u
    ensures 2 * (d as int - v) == u || 2 * (v as int - d) == u ==> (d / u) % 2 == 0
    ensures v % u == 0 ==> d == v
  {
    var q, r, down := v / u, v % u, v / u * u;
    GridFacts(v, u);
    if 2 * r < u || (2 * r == u && q % 2 == 0) then down else down + u
  }

  /** `v` lies `v % u` above the multiple `v / u * u`, and both it and the next multiple are on the grid. */
  lemma GridFacts(v: nat, u: nat)
    requires u > 0
    ensures v == v / u * u + v % u
    ensures (v / u * u) % u == 0 && (v / u * u) / u == v / u
    ensures (v / u * u + u) % u == 0 && (v / u * u + u) / u == v / u + 1
  {
    var q := v / u;
    DivModUnique(q * u, u, q, 0);
    assert (q + 1) * u == q * u + u;
    DivModUnique(q * u + u, u, q + 1, 0);
  }

  /** Whole numbers up to 2^53 are doubles: they lie on the grid of their gap. */
  lemma SmallIsExact(v: nat)
    ensures v <= TwoTo53 ==> v % Ulp(v) == 0
  {
  }

  /** Division by a positive number has exactly one quotient and remainder. */
  lemma DivModUnique(x: int, u: int, q: int, r: int)
    requires u > 0 && 0 <= r < u && x == q * u + r
    ensures x / u == q && x % u == r
  {
    var q', r' := x / u, x % u;
    assert (q - q') * u == r' - r;
    if q > q' {
      MulAtLeast(q - q', u);
    } else if q < q' {
      MulAtLeast(q' - q, u);
    }
  }

  lemma MulAtLeast(k: nat, u: nat)
    requires k >= 1
    ensures k * u >= u
  {
  }

  /**
    Unsigned decimal text whose value is a whole number: digits, optionally
    followed by '.' and zeros. Plain digits are read as an integer; text with
    a '.' is read as a REAL, so its value is rounded to the nearest double.
   */
  function IntegralValue(t: string): Option<nat> {
    var k := DotIndex(t);
    if 0 < k && AllDigits(t[..k]) && (k == |t| || AllZeros(t[k + 1..])) then
      Some(if k == |t| then DigitsValue(t[..k]) else NearestDouble(DigitsValue(t[..k])))
    else None
  }

  /** Plain digits are a whole number with no decimal point. */
  lemma IntegralValueOfDigits(t: string)
    ensures |t| > 0 && AllDigits(t) ==> IntegralValue(t) == Some(DigitsValue(t))
  {
    if |t| > 0 && AllDigits(t) {
      assert DotIndex(t) == |t|;
      assert t[..|t|] == t;
    }
  }

  /**
    The integer key SQLite compares a text parameter with when it meets an
    INTEGER column (`WHERE account_no=?`, `WHERE loan_id=?`). Numeric affinity
    turns text that reads as a decimal number, blanks around it allowed, into
    that number, so "1", " 1", "+1", "01", "1." and "1.0" all select key 1.
    Text with a '.' becomes a REAL first, so above 2^53 it selects the key of
    the nearest double. Every text `int()` reads selects the key `int()`
    returns.
   */
  function SqlKey(s: string): (r: Option<int>)
    ensures PythonInt(s).Some? ==> r == PythonInt(s)
  {
    var t := Trim(s);
    if |t| > 0 && IsSign(t[0]) then
      IntegralValueOfDigits(t[1..]);
      match IntegralValue(t[1..])
      case Some(n) => Some(if t[0] == '-' then -(n as int) else n)
      case None => None
    else
      IntegralValueOfDigits(t);
      match IntegralValue(t)
      case Some(n) => Some(n)
      case None => None
  }

  lemma {:induction false} DigitsValueOfNatToString(n: nat)
    ensures DigitsValue(NatToString(n)) == n
  {
    if n >= 10 {
      var prefix := NatToString(n / 10);
      var s := prefix + [DigitChar(n % 10)];
      assert s[..|s| - 1] == prefix;
      DigitsValueOfNatToString(n / 10);
    }
  }

  /**
    Reading back the text `str()` prints with `int()` gives the same integer,
    as long as it has no more digits than `int()` accepts.
   */
  lemma ParseIntOfIntToString(i: int)
    ensures ParseInt(IntToString(i)) == if DigitCount(i) <= MaxStrDigits then Some(i) else None
  {
    var m := if i < 0 then -i else i;
    var d := NatToString(m);
    DigitsValueOfNatToString(m);
    if i < 0 {
      var s := "-" + d;
      assert s[1..] == d;
      assert IntLiteral(s) <==> |d| <= MaxStrDigits;
    } else {
      assert !IsSign(d[0]);
      assert IntLiteral(d) <==> |d| <= MaxStrDigits;
    }
  }

  /** A number below 10^k has at most k digits. */
  lemma {:induction false} NatToStringLength(n: nat, k: nat, bound: nat)
    requires 0 < k && bound == Pow10(k) && n < bound
    ensures |NatToString(n)| <= k
    decreases k
  {
    if n >= 10 {
      assert k > 1;
      var lower := Pow10(k - 1);
      assert n / 10 < lower;
      NatToStringLength(n / 10, k - 1, lower);
    }
  }

  function Pow10(k: nat): (p: nat)
    ensures p > 0
  {
    if k == 0 then 1 else 10 * Pow10(k - 1)
  }

  /** Every 64-bit integer, and so every value SQLite stores, has at most 19 digits. */
  lemma SixtyFourBitDigits(i: int)
    requires -0x8000_0000_0000_0000 <= i <= 0x7FFF_FFFF_FFFF_FFFF
    ensures DigitCount(i) <= 19 < MaxStrDigits
  {
    assert Pow10(10) == 10_000_000_000;
    assert Pow10(15) == 1_000_000_000_000_000;
    assert Pow10(19) == 10_000_000_000_000_000_000;
    NatToStringLength(if i < 0 then -i else i, 19, Pow10(19));
  }

  /** The text `str()` prints for an integer selects that integer's key in SQLite, however long it is. */
  lemma SqlKeyOfIntToString(i: int)
    ensures SqlKey(IntToString(i)) == Some(i)
  {
    var s := IntToString(i);
    assert !IsSpace(s[0]) && !IsSpace(s[|s| - 1]);
    assert Trim(s) == s;
    if i < 0 {
      assert s[1..] == NatToString(-i);
      DigitsValueOfNatToString(-i);
      IntegralValueOfDigits(s[1..]);
    } else {
      assert !IsSign(s[0]);
      DigitsValueOfNatToString(i);
      IntegralValueOfDigits(s);
    }
  }

  /**
    The text `str()` prints for an integer selects that integer's key in
    SQLite, and `int()` reads it back when it is short enough for `int()`.
   */
  lemma IntToStringKeys(i: int)
    ensures DigitCount(i) <= MaxStrDigits ==> PythonInt(IntToString(i)) == Some(i)
    ensures SqlKey(IntToString(i)) == Some(i)
  {
    var s := IntToString(i);
    ParseIntOfIntToString(i);
    SqlKeyOfIntToString(i);
    assert !IsSpace(s[0]) && !IsSpace(s[|s| - 1]);
  }

  /** `k` zero digits. */
  function Zeros(k: nat): (z: string)
    ensures |z| == k && AllDigits(z)
  {
    seq(k, _ => '0')
  }

  /** Zeros in front of a run of digits do not change its value. */
  lemma {:induction false} DigitsValueLeadingZeros(k: nat, d: string)
    requires AllDigits(d)
    ensures AllDigits(Zeros(k) + d) && DigitsValue(Zeros(k) + d) == DigitsValue(d)
    decreases |d| + k
  {
    var z := Zeros(k);
    if |d| > 0 {
      var s := z + d;
      assert s[..|s| - 1] == z + d[..|d| - 1];
      DigitsValueLeadingZeros(k, d[..|d| - 1]);
    } else if k > 0 {
      assert z[..k - 1] == Zeros(k - 1);
      assert z + d == z;
      DigitsValueLeadingZeros(k - 1, d);
      assert Zeros(k - 1) + d == Zeros(k - 1);
    }
  }

  /**
    A number padded with leading zeros beyond `MaxStrDigits` digits selects
    key `n` in SQLite, but `int()` refuses it.
   */
  lemma LongNumberText(n: nat, k: nat)
    requires k + |NatToString(n)| > MaxStrDigits
    ensures SqlKey(Zeros(k) + NatToString(n)) == Some(n)
    ensures PythonInt(Zeros(k) + NatToString(n)).None?
  {
    var d := NatToString(n);
    var t := Zeros(k) + d;
    DigitsValueLeadingZeros(k, d);
    DigitsValueOfNatToString(n);
    assert IsDigit(t[0]) && IsDigit(t[|t| - 1]);
    assert Trim(t) == t;
    IntegralValueOfDigits(t);
    assert !IntLiteral(t);
  }

  /**
    A number written with a decimal point, such as "1.0", selects the key of
    the double nearest to it in SQLite, which is `n` itself up to 2^53; `int()`
    refuses the text.
   */
  lemma DecimalPointText(n: nat)
    ensures SqlKey(NatToString(n) + ".0") == Some(NearestDouble(n))
    ensures n <= TwoTo53 ==> SqlKey(NatToString(n) + ".0") == Some(n)
    ensures PythonInt(NatToString(n) + ".0").None?
  {
    var d := NatToString(n);
    var t := d + ".0";
    assert !IsSpace(t[0]) && !IsSpace(t[|t| - 1]);
    assert Trim(t) == t;
    assert !IsSign(t[0]);
    var k := DotIndex(t);
    assert t[|d|] == '.';
    DotIndexIsFirst(t, |d|);
    assert k == |d|;
    assert t[..k] == d;
    assert t[k + 1..] == "0";
    DigitsValueOfNatToString(n);
    assert !IsDigit(t[|d|]);
    assert !IntLiteral(t);
  }

  /**
    Above 2^53 the decimal point changes the key: 9007199254740993 lies halfway
    between two doubles, so by `DecimalPointText` "9007199254740993.0" selects
    9007199254740992, the even one.
   */
  lemma DecimalPointRounds()
    ensures NearestDouble(9007199254740993) == 9007199254740992
  {
  }
}

=== FILE: reconciliation.dfy ===
/**
  The handlers as one sequential state machine, and what stays true along
  any run of it: every balance equals the signed sum of its account's log
  entries, and no balance goes negative, as long as no account is opened with
  a negative initial amount and no deposit or withdrawal names its account in
  a form `int()` refuses.
 */
module Reconciliation {
  import opened Wrappers
  import opened Numerals
  import opened Ledger
  import opened Handlers
  import opened Dashboard

  /** One POST to one of the state-changing handlers, with its form fields. */
  datatype Request =
    | OpenReq(name: string, age: string, mobile: string, initial: Option<Money>, pin: string)
    | DepositReq(acc: string, amt: Option<Money>)
    | WithdrawReq(acc: string, amt: Option<Money>)
    | FdReq(acc: string, amt: Option<Money>, tenure: string)
    | LoanReq(acc: string, amt: Option<Money>, tenure: string)
    | ApproveReq(lid: string)

  function Handle(s: Bank, req: Request): Result<Bank, Failure> {
    match req
    case OpenReq(name, age, mobile, initial, pin) => OpenAccount(s, name, age, mobile, initial, pin)
    case DepositReq(acc, amt) => MakeDeposit(s, acc, amt)
    case WithdrawReq(acc, amt) => MakeWithdrawal(s, acc, amt)
    case FdReq(acc, amt, tenure) => CreateFd(s, acc, amt, tenure)
    case LoanReq(acc, amt, tenure) => ApplyForLoan(s, acc, amt, tenure)
    case ApproveReq(lid) => ApproveLoan(s, lid)
  }

  /**
    The state after one request: whatever the handler committed. A refused
    request leaves the database as it was.
   */
  function Step(s: Bank, req: Request): Bank {
    match Committed(Handle(s, req))
    case Some(next) => next
    case None => s
  }

  /** The state after a sequence of requests, served one at a time. */
  function Run(s: Bank, reqs: seq<Request>): Bank
    decreases |reqs|
  {
    if |reqs| == 0 then s else Run(Step(s, reqs[0]), reqs[1..])
  }

  /**
    Excludes the two requests the program lets through that break the
    invariants: an opening with a negative initial amount, and a deposit or
    withdrawal whose account text SQLite matches but `int()` refuses, such as
    "1.0", which moves the balance without logging it.
   */
  predicate Admissible(req: Request) {
    && (req.OpenReq? && req.initial.Some? ==> req.initial.value >= 0)
    && (req.DepositReq? || req.WithdrawReq? ==> SqlKey(req.acc).Some? ==> PythonInt(req.acc).Some?)
  }

  /**
    Structural facts every reachable state has: the AUTOINCREMENT counter
    fits SQLite's INTEGER, account numbers lie in 1..lastAccount, every log
    entry belongs to an existing account, and every loan is for a positive
    amount.
   */
  ghost predicate WellFormed(s: Bank) {
    && s.lastAccount <= MaxSqlInt
    && (forall a :: a in s.accounts ==> 1 <= a <= s.lastAccount)
    && (forall i :: 0 <= i < |s.log| ==> s.log[i].account in s.accounts)
    && (forall i :: 0 <= i < |s.loans| ==> s.loans[i].amount > 0)
  }

  /** Every balance is the signed sum of its account's logged transactions. */
  ghost predicate Reconciled(s: Bank) {
    forall a :: a in s.accounts ==> s.accounts[a].balance == Net(s.log, a)
  }

  ghost predicate NonNegative(s: Bank) {
    forall a :: a in s.accounts ==> s.accounts[a].balance >= 0
  }

  ghost predicate Sound(s: Bank) {
    WellFormed(s) && Reconciled(s) && NonNegative(s)
  }

  lemma EmptyBankIsSound()
    ensures Sound(EmptyBank)
  {
  }

  /** Logging one entry while moving its account by the entry's signed amount keeps the books reconciled. */
  lemma AppendKeepsReconciled(s: Bank, s': Bank, t: Tx)
    requires Reconciled(s) && t.account in s.accounts
    requires BalanceMoved(s.accounts, s'.accounts, t.account, Signed(t))
    requires s'.log == s.log + [t]
    ensures Reconciled(s')
  {
    forall a | a in s'.accounts
      ensures s'.accounts[a].balance == Net(s'.log, a)
    {
      NetAppend(s.log, t, a);
    }
  }

  /** Opening account number `k` with a non-negative initial amount keeps the books reconciled. */
  lemma OpenKeepsReconciled(s: Bank, s': Bank, k: int, row: Account)
    requires WellFormed(s) && Reconciled(s)
    requires k == s.lastAccount + 1 && row.balance >= 0
    requires s'.accounts == s.accounts[k := row]
    requires row.balance > 0 ==> s'.log == s.log + [Tx(k, Deposit, row.balance, "Initial deposit")]
    requires row.balance == 0 ==> s'.log == s.log
    ensures Reconciled(s')
  {
    NetOfUnmentioned(s.log, k);
    forall a | a in s'.accounts
      ensures s'.accounts[a].balance == Net(s'.log, a)
    {
      if row.balance > 0 {
        NetAppend(s.log, Tx(k, Deposit, row.balance, "Initial deposit"), a);
      }
    }
  }

  /** Opening an account with a non-negative initial amount keeps a sound state sound. */
  lemma OpenKeepsSound(s: Bank, name: string, age: string, mobile: string, initial: Option<Money>, pin: string)
    requires Sound(s) && (initial.Some? ==> initial.value >= 0)
    requires OpenAccount(s, name, age, mobile, initial, pin).Ok?
    ensures Sound(OpenAccount(s, name, age, mobile, initial, pin).value)
  {
    var s' := OpenAccount(s, name, age, mobile, initial, pin).value;
    var k := s.lastAccount + 1;
    OpenKeepsReconciled(s, s', k, s'.accounts[k]);
  }

  /** A successful deposit keeps a sound state sound. */
  lemma DepositKeepsSound(s: Bank, acc: string, amt: Option<Money>)
    requires Sound(s) && MakeDeposit(s, acc, amt).Ok?
    ensures Sound(MakeDeposit(s, acc, amt).value)
  {
    var a := FindAccount(s, acc).value;
    AppendKeepsReconciled(s, MakeDeposit(s, acc, amt).value, Tx(a, Deposit, amt.value, ""));
  }

  /** A successful withdrawal keeps a sound state sound; in particular its balance stays non-negative. */
  lemma WithdrawalKeepsSound(s: Bank, acc: string, amt: Option<Money>)
    requires Sound(s) && MakeWithdrawal(s, acc, amt).Ok?
    ensures Sound(MakeWithdrawal(s, acc, amt).value)
  {
    var a := FindAccount(s, acc).value;
    AppendKeepsReconciled(s, MakeWithdrawal(s, acc, amt).value, Tx(a, Withdraw, amt.value, ""));
  }

  /** A successful FD creation keeps a sound state sound. */
  lemma FdKeepsSound(s: Bank, acc: string, amt: Option<Money>, tenure: string)
    requires Sound(s) && CreateFd(s, acc, amt, tenure).Ok?
    ensures Sound(CreateFd(s, acc, amt, tenure).value)
  {
    var a := FindAccount(s, acc).value;
    var months := PythonInt(tenure).value;
    var s' := CreateFd(s, acc, amt, tenure).value;
    assert s' == OpenFd(s, a, amt.value, months);
    AppendKeepsReconciled(s, s', Tx(a, FdCreate, amt.value, FdNote(months)));
  }

  /** A successful loan application keeps a sound state sound. */
  lemma LoanApplicationKeepsSound(s: Bank, acc: string, amt: Option<Money>, tenure: string)
    requires Sound(s) && ApplyForLoan(s, acc, amt, tenure).Ok?
    ensures Sound(ApplyForLoan(s, acc, amt, tenure).value)
  {
  }

  /** A successful approval keeps a sound state sound, however often the same loan is approved. */
  lemma ApprovalKeepsSound(s: Bank, lid: string)
    requires Sound(s) && ApproveLoan(s, lid).Ok?
    ensures Sound(ApproveLoan(s, lid).value)
  {
    if lid != [] {
      var loan := s.loans[FindLoan(s, lid).value];
      var s' := ApproveLoan(s, lid).value;
      assert forall i :: 0 <= i < |s'.loans| ==> s'.loans[i].amount == s.loans[i].amount;
      if loan.account in s.accounts {
        AppendKeepsReconciled(s, s', Tx(loan.account, LoanCredit, loan.amount, "LoanID:" + lid));
      }
    }
  }

  /** Any one admissible request keeps a sound state sound. */
  lemma StepKeepsSound(s: Bank, req: Request)
    requires Sound(s) && Admissible(req)
    ensures Sound(Step(s, req))
  {
    if Handle(s, req).Ok? {
      match req
      case OpenReq(name, age, mobile, initial, pin) => OpenKeepsSound(s, name, age, mobile, initial, pin);
      case DepositReq(acc, amt) => DepositKeepsSound(s, acc, amt);
      case WithdrawReq(acc, amt) => WithdrawalKeepsSound(s, acc, amt);
      case FdReq(acc, amt, tenure) => FdKeepsSound(s, acc, amt, tenure);
      case LoanReq(acc, amt, tenure) => LoanApplicationKeepsSound(s, acc, amt, tenure);
      case ApproveReq(lid) => ApprovalKeepsSound(s, lid);
    }
  }

  /** The invariants hold after any run of admissible requests. */
  lemma {:induction false} RunKeepsSound(s: Bank, reqs: seq<Request>)
    requires Sound(s)
    requires forall i :: 0 <= i < |reqs| ==> Admissible(reqs[i])
    ensures Sound(Run(s, reqs))
    decreases |reqs|
  {
    if |reqs| > 0 {
      StepKeepsSound(s, reqs[0]);
      RunKeepsSound(Step(s, reqs[0]), reqs[1..]);
    }
  }

  /**
    Starting from an empty database, if every account was opened with a
    non-negative initial amount and every deposit and withdrawal named its
    account in a form `int()` reads, each balance equals its Deposit and
    LoanCredit amounts minus its Withdraw and FD_Create amounts, and no
    balance is negative.
   */
  lemma ReachableStatesReconcile(reqs: seq<Request>)
    requires forall i :: 0 <= i < |reqs| ==> Admissible(reqs[i])
    ensures var s := Run(EmptyBank, reqs);
      forall a :: a in s.accounts ==> 0 <= s.accounts[a].balance == Net(s.log, a)
  {
    EmptyBankIsSound();
    RunKeepsSound(EmptyBank, reqs);
  }

  /**
    Nothing rejects a negative initial amount: the account opens with a
    negative balance and no log entry, so its balance no longer matches its
    (empty) history.
   */
  lemma NegativeOpeningBreaksInvariants(s: Bank, name: string, age: string, mobile: string, initial: Money, pin: string)
    requires WellFormed(s)
    requires name != [] && mobile != [] && pin != [] && ParseInt(age).Some?
    requires FitsSqlInt(ParseInt(age).value) && s.lastAccount < MaxSqlInt
    requires initial < 0
    ensures var r := OpenAccount(s, name, age, mobile, Some(initial), pin);
      && r.Ok?
      && r.value.accounts[s.lastAccount + 1].balance == initial < 0
      && Net(r.value.log, s.lastAccount + 1) == 0
      && !NonNegative(r.value) && !Reconciled(r.value)
  {
    NetOfUnmentioned(s.log, s.lastAccount + 1);
  }

  /**
    A deposit whose account text SQLite matches but `int()` refuses finds the
    account, and the credit is committed, but `int()` then raises before the
    Deposit entry is written: the balance no longer matches the log. Such text
    exists for every account: "7" behind more than 4300 zeros
    (`LongNumberText`), and "7.0" (`DecimalPointText`) up to 2^53.
   */
  lemma UnloggedDepositBreaksReconciliation(s: Bank, acc: string, a: int, amt: Money)
    requires Sound(s) && a in s.accounts && amt > 0
    requires SqlKey(acc) == Some(a) && PythonInt(acc).None?
    ensures var req := DepositReq(acc, Some(amt));
      var r := MakeDeposit(s, acc, Some(amt));
      && !Admissible(req)
      && r.Err? && r.error.UnloggedCommit?
      && Step(s, req) == r.error.committed
      && Step(s, req).accounts[a].balance == s.accounts[a].balance + amt
      && Step(s, req).log == s.log
      && !Reconciled(Step(s, req))
  {
    assert acc != [];
    assert FindAccount(s, acc) == Some(a);
    var r := MakeDeposit(s, acc, Some(amt));
    assert r.Err? && r.error.UnloggedCommit?;
    var committed := r.error.committed;
    assert Step(s, DepositReq(acc, Some(amt))) == committed;
    assert Net(committed.log, a) == s.accounts[a].balance < committed.accounts[a].balance;
  }

  /**
    Such text exists for every existing account: behind 4300 zeros for any
    account, and as "<number>.0" for accounts up to 2^53, above which SQLite
    reads it as the nearest double.
   */
  lemma UnloggedTextExists(s: Bank, a: int)
    requires WellFormed(s) && a in s.accounts
    ensures a >= 0
    ensures SqlKey(NatToString(a) + ".0") == Some(NearestDouble(a)) && PythonInt(NatToString(a) + ".0").None?
    ensures a <= TwoTo53 ==> SqlKey(NatToString(a) + ".0") == Some(a)
    ensures SqlKey(Zeros(MaxStrDigits) + NatToString(a)) == Some(a)
         && PythonInt(Zeros(MaxStrDigits) + NatToString(a)).None?
  {
    DecimalPointText(a);
    LongNumberText(a, MaxStrDigits);
  }

  /** `SUM(balance)` over the customers table with the account numbers 1..n. */
  ghost function SumNet(log: seq<Tx>, n: nat): int
    decreases n
  {
    if n == 0 then 0 else SumNet(log, n - 1) + Net(log, n)
  }

  lemma {:induction false} SumNetAppend(log: seq<Tx>, t: Tx, n: nat)
    ensures SumNet(log + [t], n) == SumNet(log, n) + (if 1 <= t.account <= n then Signed(t) else 0)
    decreases n
  {
    if n > 0 {
      SumNetAppend(log, t, n - 1);
      NetAppend(log, t, n);
    }
  }

  lemma {:induction false} SumNetIsNetAll(log: seq<Tx>, n: nat)
    requires forall i :: 0 <= i < |log| ==> 1 <= log[i].account <= n
    ensures SumNet(log, n) == NetAll(log)
    decreases |log|
  {
    if |log| == 0 {
      SumNetOfEmpty(n);
    } else {
      var prefix := log[..|log| - 1];
      var t := log[|log| - 1];
      assert log == prefix + [t];
      SumNetIsNetAll(prefix, n);
      SumNetAppend(prefix, t, n);
      NetAppend(prefix, t, 0);
    }
  }

  lemma {:induction false} SumNetOfEmpty(n: nat)
    ensures SumNet([], n) == 0
    decreases n
  {
    if n > 0 {
      SumNetOfEmpty(n - 1);
    }
  }

  lemma {:induction false} SumBalancesIsSumNet(s: Bank, n: nat)
    requires WellFormed(s) && Reconciled(s)
    ensures SumBalances(s.accounts, n) == SumNet(s.log, n)
    decreases n
  {
    if n > 0 {
      SumBalancesIsSumNet(s, n - 1);
      if n !in s.accounts {
        NetOfUnmentioned(s.log, n);
      }
    }
  }

  /**
    The dashboard's total of all balances equals the signed sum of the whole
    transaction log.
   */
  lemma TotalBalanceIsNetOfLog(s: Bank)
    requires WellFormed(s) && Reconciled(s)
    ensures TotalBalance(s) == NetAll(s.log)
  {
    SumBalancesIsSumNet(s, s.lastAccount);
    SumNetIsNetAll(s.log, s.lastAccount);
  }

  /** In a sound state the dashboard total is never negative. */
  lemma TotalBalanceNonNegative(s: Bank)
    requires Sound(s)
    ensures TotalBalance(s) >= 0
  {
    SumBalancesNonNegative(s.accounts, s.lastAccount);
  }

  /**
    Approving a loan moves the dashboard: the approved count rises by one
    only if the loan was pending, and the total rises by the loan amount
    exactly when the loan's account exists, even on a repeated approval.
   */
  lemma ApprovalMovesDashboard(s: Bank, lid: string)
    requires WellFormed(s) && FindLoan(s, lid).Some?
    ensures var loan := s.loans[FindLoan(s, lid).value];
      var s' := ApproveLoan(s, lid).value;
      && ApprovedCount(s'.loans) == ApprovedCount(s.loans) + (if loan.approved then 0 else 1)
      && TotalBalance(s') == TotalBalance(s) + (if loan.account in s.accounts then loan.amount else 0)
  {
    var i := FindLoan(s, lid).value;
    var loan := s.loans[i];
    assert lid != [];
    var s' := ApproveLoan(s, lid).value;
    assert s'.loans == s.loans[i := loan.(approved := true)];
    ApprovedCountApprove(s.loans, i);
    if loan.account in s.accounts {
      var holder := s.accounts[loan.account];
      assert s'.accounts == s.accounts[loan.account := holder.(balance := holder.balance + loan.amount)];
      SumBalancesUpdate(s.accounts, s.lastAccount, loan.account, holder.(balance := holder.balance + loan.amount));
    } else {
      assert s'.accounts == s.accounts;
    }
  }

  /**
    Approval is not idempotent: approving the same loan twice credits its
    account twice and logs two LoanCredit entries.
   */
  lemma ReapprovalCreditsTwice(s: Bank, lid: string)
    requires FindLoan(s, lid).Some? && s.loans[FindLoan(s, lid).value].account in s.accounts
    ensures var loan := s.loans[FindLoan(s, lid).value];
      var once := ApproveLoan(s, lid).value;
      && ApproveLoan(once, lid).Ok?
      && var twice := ApproveLoan(once, lid).value;
      && twice.loans[FindLoan(s, lid).value].approved
      && twice.accounts[loan.account].balance == s.accounts[loan.account].balance + 2 * loan.amount
      && twice.log == s.log + [Tx(loan.account, LoanCredit, loan.amount, "LoanID:" + lid),
                               Tx(loan.account, LoanCredit, loan.amount, "LoanID:" + lid)]
  {
  }

  /**
    A loan whose account row is missing is still marked approved, but no
    balance moves and nothing is logged.
   */
  lemma ApprovalWithoutAccount(s: Bank, lid: string)
    requires FindLoan(s, lid).Some? && s.loans[FindLoan(s, lid).value].account !in s.accounts
    ensures var s' := ApproveLoan(s, lid).value;
      && s'.loans[FindLoan(s, lid).value].approved
      && s'.accounts == s.accounts && s'.log == s.log
  {
  }

  /**
    The account number the program reports after opening, typed back into
    the ATM form with the chosen PIN, logs in.
   */
  lemma OpenedAccountPassesAtm(s: Bank, name: string, age: string, mobile: string, initial: Option<Money>, pin: string)
    requires OpenAccount(s, name, age, mobile, initial, pin).Ok?
    ensures var s' := OpenAccount(s, name, age, mobile, initial, pin).value;
      AtmCheck(s', IntToString(s.lastAccount + 1), pin) == Ok(s.lastAccount + 1)
  {
    IntToStringKeys(s.lastAccount + 1);
  }

  /** Only opening an account writes a PIN: every other request keeps each existing account's PIN. */
  lemma StepKeepsPins(s: Bank, req: Request, a: int)
    requires a in s.accounts && WellFormed(s)
    ensures a in Step(s, req).accounts && Step(s, req).accounts[a].pin == s.accounts[a].pin
  {
  }

  /** Account 1 after Asha opens it with 1000.00. */
  const Asha := Account("Asha", 30, "9800000000", "1234", 100000)

  /** The opening step of the scenario: account 1 with one "Initial deposit" entry. */
  lemma ScenarioOpen()
    ensures Step(EmptyBank, OpenReq("Asha", "30", "9800000000", Some(100000), "1234"))
         == Bank(map[1 := Asha], 1, [Tx(1, Deposit, 100000, "Initial deposit")], [], [])
  {
    assert PythonInt("30") == ParseInt("30");
    assert AllDigits("30") && "30"[..1] == "3" && "3"[..0] == [];
    assert ParseInt("30") == Some(30);
    var r := OpenAccount(EmptyBank, "Asha", "30", "9800000000", Some(100000), "1234");
    assert r.Ok?;
    assert r.value.accounts == map[1 := Asha];
    assert r.value.log == [Tx(1, Deposit, 100000, "Initial deposit")];
    assert r.value == Bank(map[1 := Asha], 1, [Tx(1, Deposit, 100000, "Initial deposit")], [], []);
  }

  /** The plain text "1" selects account 1 and is read back by `int()`. */
  lemma AccountOneText(s: Bank)
    requires 1 in s.accounts
    ensures FindAccount(s, "1") == Some(1) && PythonInt("1") == Some(1)
  {
    IntToStringKeys(1);
    assert IntToString(1) == "1";
  }

  /** Depositing 500.00 into account 1 by its plain number credits it and logs the entry. */
  lemma ScenarioDeposit(s: Bank)
    requires 1 in s.accounts
    ensures Step(s, DepositReq("1", Some(50000)))
         == s.(accounts := s.accounts[1 := s.accounts[1].(balance := s.accounts[1].balance + 50000)],
               log := s.log + [Tx(1, Deposit, 50000, "")])
  {
    AccountOneText(s);
  }

  /** Withdrawing 300.00 from account 1, when it holds enough, debits it and logs the entry. */
  lemma ScenarioWithdraw(s: Bank)
    requires 1 in s.accounts && s.accounts[1].balance >= 30000
    ensures Step(s, WithdrawReq("1", Some(30000)))
         == s.(accounts := s.accounts[1 := s.accounts[1].(balance := s.accounts[1].balance - 30000)],
               log := s.log + [Tx(1, Withdraw, 30000, "")])
  {
    AccountOneText(s);
  }

  /** A run of three requests serves them in order. */
  lemma RunThree(s: Bank, first: Request, second: Request, third: Request)
    ensures Run(s, [first, second, third]) == Step(Step(Step(s, first), second), third)
  {
    var s1 := Step(s, first);
    var s2 := Step(s1, second);
    assert [first, second, third][1..] == [second, third];
    assert [second, third][1..] == [third];
    assert [third][1..] == [];
    assert Run(s, [first, second, third]) == Run(s1, [second, third]);
    assert Run(s1, [second, third]) == Run(s2, [third]);
    assert Run(s2, [third]) == Run(Step(s2, third), []);
  }

  /** Opening with 1000.00, depositing 500.00 and withdrawing 300.00 leaves 1200.00 and three entries. */
  lemma OpenDepositWithdrawScenario()
    ensures var s := Run(EmptyBank, [OpenReq("Asha", "30", "9800000000", Some(100000), "1234"),
                                     DepositReq("1", Some(50000)),
                                     WithdrawReq("1", Some(30000))]);
      && 1 in s.accounts && s.accounts[1].balance == 120000
      && s.log == [Tx(1, Deposit, 100000, "Initial deposit"), Tx(1, Deposit, 50000, ""), Tx(1, Withdraw, 30000, "")]
  {
    var open := OpenReq("Asha", "30", "9800000000", Some(100000), "1234");
    var deposit := DepositReq("1", Some(50000));
    var withdraw := WithdrawReq("1", Some(30000));
    RunThree(EmptyBank, open, deposit, withdraw);
    ScenarioOpen();
    var s1 := Step(EmptyBank, open);
    assert s1.accounts[1].balance == 100000;
    ScenarioDeposit(s1);
    var s2 := Step(s1, deposit);
    assert s2.accounts[1].balance == 150000;
    ScenarioWithdraw(s2);
    var s3 := Step(s2, withdraw);
    assert s3.accounts[1].balance == 120000;
    assert s3.log == s1.log + [Tx(1, Deposit, 50000, "")] + [Tx(1, Withdraw, 30000, "")];
  }

  /** A 10000.00 deposit for 12 months matures at 10550.00. */
  lemma FdMaturityExample()
    ensures Maturity(1000000, 12) == 1055000.0
  {
  }

  /**
    A 5000.00 loan for 6 months is stored pending at 10%; approving it
    credits exactly 5000.00 and sets the flag.
   */
  lemma LoanScenario(s: Bank, a: int)
    requires WellFormed(s) && a in s.accounts
    ensures var applied := ApplyForLoan(s, IntToString(a), Some(500000), "6");
      && applied.Ok?
      && var loan := applied.value.loans[|s.loans|];
      && loan.rate == LoanRate && loan.amount == 500000 && loan.tenureMonths == 6 && !loan.approved
      && var approved := ApproveLoan(applied.value, IntToString(|s.loans| + 1));
      && approved.Ok?
      && approved.value.loans[|s.loans|].approved
      && approved.value.accounts[loan.account].balance == s.accounts[loan.account].balance + 500000
  {
    assert PythonInt("6") == ParseInt("6");
    assert AllDigits("6") && "6"[..0] == [];
    assert PythonInt("6") == Some(6);
    SixtyFourBitDigits(a);
    IntToStringKeys(a);
    assert FindAccount(s, IntToString(a)) == Some(a);
    var applied := ApplyForLoan(s, IntToString(a), Some(500000), "6").value;
    assert applied.loans == s.loans + [Loan(a, 500000, LoanRate, 6, false)];
    assert applied.accounts == s.accounts;
    var lid := IntToString(|s.loans| + 1);
    IntToStringKeys(|s.loans| + 1);
    assert FindLoan(applied, lid) == Some(|s.loans|);
  }
}

=== FILE: wrappers.dfy ===
/** The two shapes every fallible operation of the ledger returns. */
module Wrappers {

  /** A value that may be absent, such as a form field that did not parse. */
  datatype Option<+T> = None | Some(value: T)

  /** The outcome of a handler: the new state, or the reason it was refused. */
  datatype Result<+T, +E> = Ok(value: T) | Err(error: E)
}
